=== FILE: README.md ===
# Queue simulation engine — Dafny model

This project models the event-generation and server-assignment core of a
browser-based queueing simulator. The simulator has two independent scripts:

- `script.js` simulates M/M/c, M/G/c (uniform service) and M/N/c (normal service) queues.
  On each timer tick it draws an exponential inter-arrival gap and a service time.
  It hands the customer to the server whose end time is least, with ties going to the lowest index.
  It then logs the customer's arrival, start, end, wait and turnaround.
  The run stops once `cp = 1 - exp(-λ·t)` exceeds 0.999999.
  A summary then reports the total time, the mean wait, service and turnaround times, and the utilisation of each server.
- `main.js` simulates a single-server queue.
  Each customer starts at the later of their own arrival and the previous customer's end.
  The script keeps a running total `cp` of the arrival draws.
  It pauses, without logging anything, on a tick whose draw would take `cp` past 1.

The model is functional. Each state is an immutable record: sequences of reals
for server end and busy times, a customer log, and counters. Each step is a pure
function of the state and of the sampled values for that tick. Random draws and
transcendental functions are parameters: `-ln(u)`, the uniform draw, the normal
deviate `z`, and the outcome of the `cp > 0.999999` test.

Files:
- `wrappers.dfy`: `Option` and `Result`.
- `sums.dfy`: the `reduce` sums, means and `Math.max`.
- `seqs.dfy`: one fact about sequence prefixes.
- `sampler.dfy`: the deterministic part of `getExponential`, `getUniform` and `getNormal`, and the choice of service law.
- `multi_server.dfy`: the script.js engine. It covers the step, server selection, start-up, pause and summary.
- `single_server.dfy`: the main.js engine. It covers the step, the `cp` cap and reset.
- `agreement.dfy`: relates main.js to script.js run with one server. The reset state corresponds to a freshly started one-server engine. Given the same positive gap and the same service time, one main.js step that does not pause and one script.js assignment log the same customer and keep the correspondence. No lemma covers whole runs, and the two scripts draw their service times from different laws; the lemma takes the service time as given.

Behaviours of the code that the model keeps:
- The logged `server` field is 1-based.
- An empty log has no summary: the code would print `NaN` averages, and the model answers `None`.
- A stopped or paused run takes no step until Start is pressed again. Start then resumes the same run with its log, clock and server arrays. Pause and stop are the same operation, and no error is raised.

## Model

| member | source | states |
|---|---|---|
| Sampler.Exponential | script.js:8-11 | the exponential sample is non-negative, positive when `-ln(u)` is positive, and times the rate gives back `-ln(u)` |
| Sampler.Uniform | script.js:13-15 | for a draw in [0, 1) the sample lies in [min, max], and strictly below max when min < max |
| Sampler.UniformRecoversDraw | script.js:13-15 | on a proper interval the uniform map is invertible: `(v - min) / (max - min)` is the draw again |
| Sampler.UniformMonotone | script.js:13-15 | a larger draw never yields a smaller uniform sample |
| Sampler.ClampNormal | script.js:17-23 | the normal sample is never negative, never below `mean + z·stdDev`, and is either 0 or exactly that value |
| Sampler.ServiceTime | script.js:29-37 | every service law gives a non-negative duration; MMC is `-ln(u)/μ`; MGC is `(1 + r)/μ` for the uniform draw r, so it lies in [1/μ, 2/μ); MNC is the clamp at 0 of `(1 + 0.3·z)/μ` |
| Sums.Sum | script.js:101-103 | the `reduce` total of per-customer values, a left fold that is non-negative whenever every term is |
| Sums.SumAppend | script.js:101-103 | each `reduce` step adds exactly the next element to the running total |
| Sums.Mean | script.js:101-103 | the average is the total divided by `customers.length`: the mean times the count is the total, and it is non-negative when the total is |
| Sums.MaxOf | script.js:100 | the total time is one of the server end times and no server ends later |
| Sums.SumPointwise | script.js:101-103 | the sum of per-customer turnarounds equals the sum of waits plus the sum of services when each turnaround is wait plus service |
| Sums.PercentBounds | script.js:107 | a busy time between 0 and the total time is between 0% and 100% of it |
| MultiServer.Initial | script.js:2-6 | the page-load state is stopped, unconfigured, has no servers, an empty log, clock 0 and next id 1, and satisfies the engine invariant |
| MultiServer.EarliestAmong | script.js:42-49 | after scanning the first n servers the loop holds an index whose end time is least among them, and every earlier index ends strictly later |
| MultiServer.Earliest | script.js:42-49 | the chosen server ends no later than any server, and all lower-indexed servers end strictly later (ties go to the lowest index) |
| MultiServer.EarliestUnique | script.js:44-49 | because of the strict comparison, at most one server satisfies the selection property |
| MultiServer.Assign | script.js:39-65 | the clock advances by the gap; the earliest server is chosen; `start` is the later of arrival and that server's end; wait ≥ 0; turnaround = wait + service; only the chosen server's end (to `end`) and busy time (by `service`) change; one customer with the current id is appended; the invariant is kept |
| MultiServer.AssignKeepsValid | script.js:51-65 | after an assignment every server's busy time stays between 0 and its end time, ids stay 1..N, arrivals stay ordered, and every customer ends no later than its server's clock |
| MultiServer.Step | script.js:25-78 | a tick advances the clock by `-ln(u)/λ` and appends a customer whose service time comes from the configured law. The customer goes to the earliest-ending server, ties going to the lowest index, and starts at the later of its arrival and that server's end time; only that server's end and busy entries change. The run keeps going exactly when the cp test did not fire |
| MultiServer.Run | script.js:72-77 | repeated ticks keep the invariant and the log prefix and never move the clock back; a stopped engine is left unchanged; with no crossing every tick logs one customer |
| MultiServer.RunStopsAtFirstCrossing | script.js:72-73 | the run stops at the first tick whose cp test fires, after logging that tick's customer |
| MultiServer.Start | script.js:122-142 | a running engine is left as is; otherwise non-numeric or non-positive λ, μ or server count is rejected; an accepted start runs, keeps the log and clock, and zero-fills both server arrays only if they did not exist yet |
| MultiServer.Pause | script.js:144-152 | pausing or stopping clears the running flag and changes nothing else |
| MultiServer.Utilization | script.js:106-109 | each server's utilisation lies in [0, 100] and equals busy time over total time, in percent |
| MultiServer.Summarize | script.js:99-104 | a summary exists exactly when the log is non-empty; its total time is the largest server end and is positive; the average wait, service and turnaround are the means of the logged waits, services and turnarounds; the average wait and service are non-negative; average turnaround = average wait + average service; utilisations lie in [0, 100] |
| MultiServer.SummaryFacts | script.js:100-103 | in a reachable non-empty state the total time is positive and bounds every busy time, and the turnaround sum splits into wait and service sums |
| MultiServer.MeanSplits | script.js:101-103 | the mean turnaround is the mean wait plus the mean service |
| SingleServer.Reset | main.js:100-105 | the reset state has an empty log, `cp` = 0, next id 1 and clock 0, and satisfies the invariant |
| SingleServer.Step | main.js:32-73 | a tick pauses exactly when `cp + rn` > 1, leaving everything unchanged; otherwise `cp` grows by `rn` and stays ≤ 1, one record with the current id is appended, the clock advances by the gap, `start` is the later of arrival and the previous end (0 for the first), wait ≥ 0, response = wait, tat = wait + service |
| SingleServer.StepKeepsValid | main.js:43-73 | appending the computed record keeps `cp` equal to the sum of the logged arrival draws, ids consecutive and every record chained to the one before |
| SingleServer.Run | main.js:38-43 | a sequence of ticks keeps the invariant and the log prefix, and `cp` never decreases and never exceeds 1 |
| SingleServer.ArrivalsOrdered | main.js:45-46 | arrival times never decrease along the log |
| SingleServer.ArrivalIsSumOfGaps | main.js:45-46 | the arrival clock equals the sum of the sampled inter-arrival gaps so far |
| SingleServer.NoOverlap | main.js:52-54 | every customer starts no earlier than the end of every earlier customer |
| SingleServer.FirstCustomerNeverWaits | main.js:52-53 | the first customer starts on arrival with zero wait |
| Agreement.StartsAgree | main.js:100-105 | a reset single-server state matches a freshly started one-server engine |
| Agreement.StepsAgree | main.js:52-57 | with the same gap and service time, a non-pausing single-server step and a one-server assignment log the same customer and stay in step |

## Left out

- `Math.random`, `Math.log`, `Math.exp`, `Math.sqrt` and `Math.cos` are not modelled. Their results enter as parameters: `-ln(u)` ≥ 0 for the exponential law, a draw in [0, 1) for the uniform law, and any real `z` for the normal law.
- The loops in `getNormal` that redraw `u` and `v` while they are 0 (script.js:18-20) are not modelled; they only feed `z`.
- The script.js stop test `cp = 1 - exp(-λ·t) > 0.999999` is not computed. It enters each tick as the boolean `crossed`.
- MultiServer.Step requires `-ln(u)` > 0. `Math.random()` returning exactly 0 would make the gap infinite, and floating-point infinities are not modelled.
- In main.js the uniform draws `rn1`/`rn2` and the durations derived from them are independent parameters. The logarithm that links them is not modelled.
- main.js reads λ and μ on every tick and never validates them. The model assumes positive rates, so every sampled duration is at least 0.
- main.js stores every timing field as a 2-decimal string (`toFixed`), and the draws `rn1`/`rn2` as 4-decimal strings. It chains each start off the rounded previous end. The model uses exact reals throughout, and the 6-decimal formatting of the script.js log is also left out.
- `startSimulation` re-reads the server count on a restart but keeps the server arrays it created the first time. The model uses the length of those arrays as the server count and does not model a restart with a different count.
- An unknown model name leaves the script.js service time `undefined`, so the arithmetic that follows yields `NaN`. The model's service law is one of its three values.
- Floating-point rounding, overflow and `NaN` propagation are not modelled. Non-numeric form input is modelled only as the `None` value that the `isNaN` check rejects.
- These are UI code with no numeric logic, so they are not modelled:
  - DOM rendering (`updateTable`, `renderTable`, `log`, the summary text, `showClearButton`);
  - `alert`;
  - `location.reload`;
  - `setInterval`/`clearInterval` pacing;
  - main.js `startSimulation`, `pauseSimulation` and `resumeSimulation`, which only reset, set the timer and toggle `isPaused`.
- SingleServer.Run: states bounds on the number of ticks consumed, not the exact tick at which the first pause happens.

=== FILE: agreement.dfy ===
/**
 * main.js against script.js run with one server. A reset main.js state
 * corresponds to a freshly started one-server engine, and one step keeps the
 * correspondence when both receive the same positive gap and the same service
 * time and the main.js step does not pause on its `cp` cap. Whole runs are not
 * covered here.
 */
module Agreement {
  import opened Wrappers
  import Sampler
  import SingleServer
  import MultiServer

  /** A main.js record and a script.js log entry describe the same customer. */
  predicate SameCustomer(r: SingleServer.Record, c: MultiServer.Customer)
  {
    && r.id == c.id && r.arrival == c.arrival && r.service == c.service
    && r.start == c.start && r.end == c.end && r.wait == c.wait && r.tat == c.turnaround
  }

  /** The two states hold the same log and clocks, and the one server's end time is the last customer's end. */
  predicate Corresponds(s: SingleServer.State, e: MultiServer.Engine)
  {
    && |s.customers| == |e.customers|
    && (forall i :: 0 <= i < |s.customers| ==> SameCustomer(s.customers[i], e.customers[i]))
    && s.lastArrivalTime == e.arrivalTime
    && s.customerId == e.nextId
    && e.ends == [SingleServer.PrevEnd(s.customers, |s.customers|)]
  }

  /** A reset main.js state matches a freshly started one-server script.js engine. */
  lemma StartsAgree(lambda: real, mu: real, model: Sampler.ServiceModel)
    requires lambda > 0.0 && mu > 0.0
    ensures MultiServer.Start(MultiServer.Initial(), Some(lambda), Some(mu), Some(1), model).Success?
    ensures Corresponds(SingleServer.Reset(),
                        MultiServer.Start(MultiServer.Initial(), Some(lambda), Some(mu), Some(1), model).value)
  {
    var e := MultiServer.Start(MultiServer.Initial(), Some(lambda), Some(mu), Some(1), model).value;
    assert e.ends == [0.0];
  }

  /**
   * With the same gap and service time, a main.js step that does not pause and
   * a one-server script.js assignment produce the same customer and keep the
   * states in step.
   */
  lemma StepsAgree(s: SingleServer.State, e: MultiServer.Engine, d: SingleServer.Draw)
    requires SingleServer.Valid(s) && MultiServer.Ready(e) && |e.ends| == 1
    requires Corresponds(s, e)
    requires SingleServer.DrawOk(d) && d.interarrival > 0.0
    requires s.cp + d.rn1 <= 1.0
    ensures SingleServer.Step(s, d).Advanced?
    ensures Corresponds(SingleServer.Step(s, d).next, MultiServer.Assign(e, d.interarrival, d.service))
  {
    var s' := SingleServer.Step(s, d).next;
    var e' := MultiServer.Assign(e, d.interarrival, d.service);
    var n := |s.customers|;
    var r := s'.customers[n];
    var c := e'.customers[n];
    assert c.server == 1;
    assert r.start == c.start;
    forall i | 0 <= i < |s'.customers|
      ensures SameCustomer(s'.customers[i], e'.customers[i])
    {
      if i < n {
        assert s'.customers[i] == s.customers[i];
        assert e'.customers[i] == e.customers[i];
      }
    }
    assert e'.ends == [c.end];
  }
}

=== FILE: multi_server.dfy ===
/**
 * The multi-server engine of script.js: an arrival clock, one end time and one
 * busy-time total per server, and the log of served customers. Every step
 * advances the clock by a sampled gap, hands the customer to the server that
 * frees up first, and records the customer's timings.
 */
module MultiServer {
  import opened Wrappers
  import opened Sums
  import opened Sampler
  import opened Seqs

  /** One row of the customer log; `server` is 1-based as in script.js. */
  datatype Customer = Customer(
    id: nat, arrival: real, service: real, start: real, end: real,
    wait: real, turnaround: real, server: nat)

  /** The values read from the form by `startSimulation`. */
  datatype Config = Config(lambda: real, mu: real, model: ServiceModel)

  /**
   * The module-level variables of script.js. The number of servers is the
   * length of `ends`; `config` is `None` before the first successful start.
   */
  datatype Engine = Engine(
    config: Option<Config>, running: bool, arrivalTime: real, nextId: nat,
    ends: seq<real>, busy: seq<real>, customers: seq<Customer>)

  /** The state when the page is loaded: stopped, unconfigured, no servers and an empty log. */
  function Initial(): (r: Engine)
    ensures Valid(r) && !r.running && r.config.None?
    ensures r.arrivalTime == 0.0 && r.nextId == 1 && r.ends == [] && r.busy == [] && r.customers == []
  {
    Engine(None, false, 0.0, 1, [], [], [])
  }

  /** The timing identities every logged customer satisfies. */
  predicate WellTimed(c: Customer)
  {
    && c.service >= 0.0
    && c.arrival <= c.start
    && c.end == c.start + c.service
    && c.wait == c.start - c.arrival
    && c.turnaround == c.end - c.arrival
  }

  /**
   * The i-th log entry `c` has id i + 1, sane timings, arrived by the clock
   * reading `clock`, and finishes no later than its server's end time.
   */
  predicate Logged(c: Customer, i: int, ends: seq<real>, clock: real)
  {
    && c.id == i + 1
    && WellTimed(c)
    && 1 <= c.server <= |ends|
    && 0.0 < c.arrival <= clock
    && c.end <= ends[c.server - 1]
  }

  /** The invariant every reachable engine state keeps. */
  predicate Valid(e: Engine)
  {
    && |e.busy| == |e.ends|
    && (|e.ends| > 0 ==> e.config.Some?)
    && (e.config.Some? ==> e.config.value.lambda > 0.0 && e.config.value.mu > 0.0)
    && e.arrivalTime >= 0.0
    && (forall i :: 0 <= i < |e.ends| ==> 0.0 <= e.busy[i] <= e.ends[i])
    && e.nextId == |e.customers| + 1
    && (forall i :: 0 <= i < |e.customers| ==> Logged(e.customers[i], i, e.ends, e.arrivalTime))
    && (forall i, j :: 0 <= i < j < |e.customers| ==> e.customers[i].arrival <= e.customers[j].arrival)
  }

  /** A valid state whose server arrays have been set up, so that a step can run. */
  predicate Ready(e: Engine)
  {
    Valid(e) && |e.ends| > 0
  }

  /**
   * Server k is the one the selection loop picks: no server ends earlier,
   * and every server before it ends strictly later (ties go to the lowest index).
   */
  predicate IsEarliest(ends: seq<real>, k: int)
  {
    && 0 <= k < |ends|
    && (forall j :: 0 <= j < |ends| ==> ends[k] <= ends[j])
    && (forall j :: 0 <= j < k ==> ends[k] < ends[j])
  }

  /** The selection loop after it has looked at the first n servers. */
  function EarliestAmong(ends: seq<real>, n: nat): (k: nat)
    requires 0 < n <= |ends|
    ensures IsEarliest(ends[..n], k)
    decreases n
  {
    if n == 1 then 0
    else
      var k := EarliestAmong(ends, n - 1);
      assert ends[..n - 1] == ends[..n][..n - 1];
      if ends[n - 1] < ends[k] then n - 1 else k
  }

  /** The server `simulateStep` assigns the next customer to. */
  function Earliest(ends: seq<real>): (k: nat)
    requires |ends| > 0
    ensures IsEarliest(ends, k)
  {
    assert ends[..|ends|] == ends;
    EarliestAmong(ends, |ends|)
  }

  /** The tie-break makes the choice unique: at most one server satisfies `IsEarliest`. */
  lemma EarliestUnique(ends: seq<real>, a: int, b: int)
    requires IsEarliest(ends, a) && IsEarliest(ends, b)
    ensures a == b
  {
    assert ends[a] <= ends[b] && ends[b] <= ends[a];
  }

  /**
   * The numeric core of `simulateStep` for given sampled durations: advance
   * the arrival clock, pick the earliest server, log the customer.
   */
  function Assign(e: Engine, interArrival: real, service: real): (r: Engine)
    requires Ready(e)
    requires interArrival > 0.0 && service >= 0.0
    ensures Ready(r)
    ensures r.arrivalTime == e.arrivalTime + interArrival
    ensures r.config == e.config && r.running == e.running
    ensures |r.ends| == |e.ends| && r.nextId == e.nextId + 1
    ensures |r.customers| == |e.customers| + 1 && r.customers[..|e.customers|] == e.customers
    ensures var c := r.customers[|e.customers|]; var k := c.server - 1;
      && IsEarliest(e.ends, k)
      && c.id == e.nextId
      && c.arrival == r.arrivalTime
      && c.service == service
      && c.start >= c.arrival && c.start >= e.ends[k]
      && (c.start == c.arrival || c.start == e.ends[k])
      && c.end >= c.start
      && c.wait >= 0.0
      && c.turnaround == c.wait + c.service
      && r.ends[k] == c.end
      && r.busy[k] == e.busy[k] + service
      && (forall j :: 0 <= j < |e.ends| && j != k ==> r.ends[j] == e.ends[j] && r.busy[j] == e.busy[j])
  {
    var arrival := e.arrivalTime + interArrival;
    var k := Earliest(e.ends);
    var start := Max2(arrival, e.ends[k]);
    var end := start + service;
    var c := Customer(e.nextId, arrival, service, start, end, start - arrival, end - arrival, k + 1);
    var r := e.(arrivalTime := arrival, nextId := e.nextId + 1,
                ends := e.ends[k := end], busy := e.busy[k := e.busy[k] + service],
                customers := e.customers + [c]);
    AssignKeepsValid(e, r, k, c);
    r
  }

  /** The invariant survives one assignment. */
  lemma AssignKeepsValid(e: Engine, r: Engine, k: nat, c: Customer)
    requires Ready(e) && k < |e.ends|
    requires c.id == e.nextId && c.server == k + 1 && WellTimed(c)
    requires c.arrival > e.arrivalTime && c.start >= e.ends[k]
    requires r == e.(arrivalTime := c.arrival, nextId := e.nextId + 1,
                     ends := e.ends[k := c.end], busy := e.busy[k := e.busy[k] + c.service],
                     customers := e.customers + [c])
    ensures Ready(r)
  {
    var n := |e.customers|;
    forall i | 0 <= i < |r.customers|
      ensures Logged(r.customers[i], i, r.ends, r.arrivalTime)
    {
      if i < n {
        assert r.customers[i] == e.customers[i];
        assert Logged(e.customers[i], i, e.ends, e.arrivalTime);
      }
    }
    forall i, j | 0 <= i < j < |r.customers|
      ensures r.customers[i].arrival <= r.customers[j].arrival
    {
      if j == n {
        assert Logged(e.customers[i], i, e.ends, e.arrivalTime);
      }
    }
  }

  /** What one timer tick feeds the step: the arrival draw, the service draws, and the outcome of the cp stop test. */
  datatype StepInput = StepInput(arrivalNegLog: real, draws: ServiceDraws, crossed: bool)

  predicate InputOk(x: StepInput)
  {
    x.arrivalNegLog > 0.0 && DrawsOk(x.draws)
  }

  /**
   * `simulateStep`: sample the gap and the service time from the configured
   * laws, assign the customer, and stop the run when the cp test fired.
   */
  function Step(e: Engine, x: StepInput): (r: Engine)
    requires Ready(e) && InputOk(x)
    ensures Ready(r)
    ensures r.arrivalTime > e.arrivalTime
    ensures r.arrivalTime == e.arrivalTime + Exponential(e.config.value.lambda, x.arrivalNegLog)
    ensures |r.customers| == |e.customers| + 1 && r.customers[..|e.customers|] == e.customers
    ensures r.customers[|e.customers|].service == ServiceTime(e.config.value.model, e.config.value.mu, x.draws)
    ensures var c := r.customers[|e.customers|]; var k := c.server - 1;
      && IsEarliest(e.ends, k)
      && c.start == Max2(c.arrival, e.ends[k])
      && r.ends == e.ends[k := c.end]
      && r.busy == e.busy[k := e.busy[k] + c.service]
    ensures r.running <==> e.running && !x.crossed
    ensures r.config == e.config
  {
    var cfg := e.config.value;
    var gap := Exponential(cfg.lambda, x.arrivalNegLog);
    var service := ServiceTime(cfg.model, cfg.mu, x.draws);
    var r := Assign(e, gap, service);
    r.(running := e.running && !x.crossed)
  }

  /** No tick in `xs` reports that the cp threshold was crossed. */
  predicate NoCrossing(xs: seq<StepInput>)
  {
    forall i :: 0 <= i < |xs| ==> !xs[i].crossed
  }

  /** The interval timer: steps are taken while the engine runs and ticks remain. */
  function Run(e: Engine, xs: seq<StepInput>): (r: Engine)
    requires Ready(e)
    requires forall i :: 0 <= i < |xs| ==> InputOk(xs[i])
    ensures Ready(r)
    ensures |e.customers| <= |r.customers| <= |e.customers| + |xs|
    ensures r.customers[..|e.customers|] == e.customers
    ensures r.arrivalTime >= e.arrivalTime
    ensures !e.running ==> r == e
    ensures e.running && NoCrossing(xs) ==> r.running && |r.customers| == |e.customers| + |xs|
    decreases |xs|
  {
    if |xs| == 0 || !e.running then e
    else
      var e' := Step(e, xs[0]);
      var rest := xs[1..];
      assert forall i :: 0 <= i < |rest| ==> InputOk(rest[i]);
      assert NoCrossing(xs) ==> e'.running == e.running && NoCrossing(rest);
      var r := Run(e', rest);
      PrefixTransitive(r.customers, e'.customers, e.customers);
      r
  }

  /** The run stops exactly at the first tick whose cp test fires, and that tick's customer is still logged. */
  lemma {:induction false} RunStopsAtFirstCrossing(e: Engine, xs: seq<StepInput>, k: nat)
    requires Ready(e) && e.running
    requires forall i :: 0 <= i < |xs| ==> InputOk(xs[i])
    requires k < |xs| && xs[k].crossed && NoCrossing(xs[..k])
    ensures !Run(e, xs).running
    ensures |Run(e, xs).customers| == |e.customers| + k + 1
    decreases k
  {
    var e' := Step(e, xs[0]);
    if k == 0 {
      assert !e'.running;
    } else {
      assert !xs[0].crossed by { assert xs[..k][0] == xs[0]; }
      assert xs[1..][..k - 1] == xs[..k][1..];
      RunStopsAtFirstCrossing(e', xs[1..], k - 1);
    }
  }

  /** `startSimulation` rejects the form (the alert) when a value is not a number or not positive. */
  datatype StartError = InvalidParameters

  /** `Array(n).fill(0)`. */
  function Zeros(n: nat): (z: seq<real>)
    ensures |z| == n && forall i :: 0 <= i < n ==> z[i] == 0.0
  {
    seq(n, _ => 0.0)
  }

  /** Whether the parsed form values pass the validation of `startSimulation`. */
  predicate Acceptable(lambda: Option<real>, mu: Option<real>, servers: Option<int>)
  {
    lambda.Some? && mu.Some? && servers.Some?
    && lambda.value > 0.0 && mu.value > 0.0 && servers.value > 0
  }

  /**
   * `startSimulation`. A parse that yields `NaN` is `None`. Nothing happens
   * while a run is in progress; the server arrays are zero-filled only when
   * they have never been created.
   */
  function Start(e: Engine, lambda: Option<real>, mu: Option<real>, servers: Option<int>, model: ServiceModel)
    : (r: Result<Engine, StartError>)
    requires Valid(e)
    ensures e.running ==> r == Success(e)
    ensures !e.running ==> (r.Failure? <==> !Acceptable(lambda, mu, servers))
    ensures r.Success? && !e.running ==>
      && Ready(r.value) && r.value.running
      && r.value.config == Some(Config(lambda.value, mu.value, model))
      && r.value.customers == e.customers && r.value.arrivalTime == e.arrivalTime && r.value.nextId == e.nextId
      && (|e.ends| == 0 ==> |r.value.ends| == |r.value.busy| == servers.value)
      && (|e.ends| == 0 ==> forall i :: 0 <= i < servers.value ==> r.value.ends[i] == 0.0 && r.value.busy[i] == 0.0)
      && (|e.ends| > 0 ==> r.value.ends == e.ends && r.value.busy == e.busy)
  {
    if e.running then Success(e)
    else if !Acceptable(lambda, mu, servers) then Failure(InvalidParameters)
    else
      var cfg := Some(Config(lambda.value, mu.value, model));
      if |e.ends| == 0 then
        Success(e.(config := cfg, running := true, ends := Zeros(servers.value), busy := Zeros(servers.value)))
      else
        Success(e.(config := cfg, running := true))
  }

  /** `pauseSimulation` and `stopSimulation`: the timer is cleared and nothing else changes. */
  function Pause(e: Engine): (r: Engine)
    ensures !r.running
    ensures r.(running := e.running) == e
  {
    e.(running := false)
  }

  /** The figures `displaySummary` prints; utilisation is in percent. */
  datatype Summary = Summary(
    totalTime: real, count: nat, avgWait: real, avgService: real,
    avgTurnaround: real, utilization: seq<real>)

  function Waits(cs: seq<Customer>): (xs: seq<real>)
    ensures |xs| == |cs| && forall i :: 0 <= i < |cs| ==> xs[i] == cs[i].wait
  {
    seq(|cs|, i requires 0 <= i < |cs| => cs[i].wait)
  }

  function Services(cs: seq<Customer>): (xs: seq<real>)
    ensures |xs| == |cs| && forall i :: 0 <= i < |cs| ==> xs[i] == cs[i].service
  {
    seq(|cs|, i requires 0 <= i < |cs| => cs[i].service)
  }

  function Turnarounds(cs: seq<Customer>): (xs: seq<real>)
    ensures |xs| == |cs| && forall i :: 0 <= i < |cs| ==> xs[i] == cs[i].turnaround
  {
    seq(|cs|, i requires 0 <= i < |cs| => cs[i].turnaround)
  }

  /**
   * `displaySummary`. With an empty log `displaySummary` divides by zero and
   * prints `NaN`; the model answers `None` there.
   */
  function Summarize(e: Engine): (r: Option<Summary>)
    requires Ready(e)
    ensures r.None? <==> |e.customers| == 0
    ensures r.Some? ==>
      && r.value.count == |e.customers|
      && r.value.totalTime in e.ends
      && (forall i :: 0 <= i < |e.ends| ==> e.ends[i] <= r.value.totalTime)
      && r.value.totalTime > 0.0
      && r.value.avgWait >= 0.0
      && r.value.avgService >= 0.0
      && MeanOf(r.value.avgWait, Waits(e.customers))
      && MeanOf(r.value.avgService, Services(e.customers))
      && MeanOf(r.value.avgTurnaround, Turnarounds(e.customers))
      && r.value.avgTurnaround == r.value.avgWait + r.value.avgService
      && |r.value.utilization| == |e.ends|
      && (forall i :: 0 <= i < |e.ends| ==>
            PercentOf(r.value.utilization[i], e.busy[i], r.value.totalTime))
  {
    var cs := e.customers;
    if |cs| == 0 then None
    else
      var total := MaxOf(e.ends);
      SummaryFacts(e, total);
      var waits, services, turnarounds := Waits(cs), Services(cs), Turnarounds(cs);
      MeanSplits(waits, services, turnarounds);
      var util := Utilization(e.busy, e.ends, total);
      Some(Summary(total, |cs|, Mean(waits), Mean(services), Mean(turnarounds), util))
  }

  /** `p` is `part` as a percentage of `whole`, and lies in [0, 100]. */
  predicate PercentOf(p: real, part: real, whole: real)
  {
    0.0 <= p <= 100.0 && p * whole == part * 100.0
  }

  /** `(serverBusyTime[i] / totalTime) * 100` for every server. */
  function Utilization(busy: seq<real>, ends: seq<real>, total: real): (u: seq<real>)
    requires |busy| == |ends| && total > 0.0
    requires forall i :: 0 <= i < |ends| ==> 0.0 <= busy[i] <= ends[i] <= total
    ensures |u| == |ends|
    ensures forall i :: 0 <= i < |u| ==> PercentOf(u[i], busy[i], total)
  {
    var u := seq(|ends|, i requires 0 <= i < |ends| => busy[i] / total * 100.0);
    forall i | 0 <= i < |u|
      ensures PercentOf(u[i], busy[i], total)
    {
      PercentBounds(busy[i], total);
    }
    u
  }

  /** Facts about a non-empty log that the summary relies on. */
  lemma SummaryFacts(e: Engine, total: real)
    requires Ready(e) && |e.customers| > 0
    requires total in e.ends && forall i :: 0 <= i < |e.ends| ==> e.ends[i] <= total
    ensures total > 0.0
    ensures forall i :: 0 <= i < |e.ends| ==> 0.0 <= e.busy[i] <= e.ends[i] <= total
    ensures Sum(Waits(e.customers)) >= 0.0 && Sum(Services(e.customers)) >= 0.0
    ensures Sum(Turnarounds(e.customers)) == Sum(Waits(e.customers)) + Sum(Services(e.customers))
  {
    var cs := e.customers;
    assert Logged(cs[0], 0, e.ends, e.arrivalTime);
    assert e.ends[cs[0].server - 1] <= total;
    forall i | 0 <= i < |cs|
      ensures cs[i].wait >= 0.0 && cs[i].service >= 0.0 && cs[i].turnaround == cs[i].wait + cs[i].service
    {
      assert Logged(cs[i], i, e.ends, e.arrivalTime);
    }
    SumPointwise(Waits(cs), Services(cs), Turnarounds(cs));
  }

  /** The mean of a pointwise sum is the sum of the means. */
  lemma MeanSplits(xs: seq<real>, ys: seq<real>, zs: seq<real>)
    requires 0 < |xs| == |ys| == |zs|
    requires Sum(zs) == Sum(xs) + Sum(ys)
    ensures Mean(zs) == Mean(xs) + Mean(ys)
  {
    var n := |xs| as real;
    assert Mean(zs) == Sum(zs) / n && Mean(xs) == Sum(xs) / n && Mean(ys) == Sum(ys) / n;
    DivisionSplits(Sum(xs), Sum(ys), n);
  }
}

=== FILE: sampler.dfy ===
/**
 * The deterministic post-processing of the random samplers in script.js.
 * `Math.random`, `Math.log`, `Math.sqrt` and `Math.cos` are not modelled: each
 * sampler receives the outcome of those calls as a parameter.
 */
module Sampler {

  /** The three service-time models offered by the simulator (M/M/c, M/G/c with a uniform law, M/N/c). */
  datatype ServiceModel = MMC | MGC | MNC

  /**
   * The random material one service sample may consume:
   *   negLog  = -ln(u) for a uniform draw u in (0, 1), used by the exponential law;
   *   uniform = a draw in [0, 1), used by the uniform law;
   *   z       = a standard normal deviate from the Box-Muller transform.
   */
  datatype ServiceDraws = ServiceDraws(negLog: real, uniform: real, z: real)

  /** The ranges the underlying draws can take. */
  predicate DrawsOk(d: ServiceDraws)
  {
    d.negLog >= 0.0 && 0.0 <= d.uniform < 1.0
  }

  /** `getExponential(rate)`: `-1 / rate * Math.log(u)`, with `-ln(u)` supplied as `negLog`. */
  function Exponential(rate: real, negLog: real): (v: real)
    requires rate > 0.0 && negLog >= 0.0
    ensures v >= 0.0
    ensures negLog > 0.0 ==> v > 0.0
    ensures v * rate == negLog
  {
    negLog / rate
  }

  /** `getUniform(min, max)`: the affine image of a draw `r` in [0, 1). */
  function Uniform(min: real, max: real, r: real): (v: real)
    requires 0.0 <= r < 1.0
    ensures min <= max ==> min <= v <= max
    ensures min < max ==> v < max
  {
    var width := max - min;
    ScaledDrawBounds(r, width);
    min + r * width
  }

  /** A draw in [0, 1) scales a non-negative width to a part of that width. */
  lemma ScaledDrawBounds(r: real, w: real)
    requires 0.0 <= r < 1.0
    ensures w >= 0.0 ==> 0.0 <= r * w <= w
    ensures w > 0.0 ==> r * w < w
  {
    if w > 0.0 {
      assert w - r * w == (1.0 - r) * w;
    }
  }

  /** The uniform map is invertible on a proper interval: the draw can be read back from the sample. */
  lemma UniformRecoversDraw(min: real, max: real, r: real)
    requires min < max && 0.0 <= r < 1.0
    ensures (Uniform(min, max, r) - min) / (max - min) == r
  {
    var w := max - min;
    assert Uniform(min, max, r) - min == r * w;
  }

  /** A larger draw never gives a smaller sample. */
  lemma UniformMonotone(min: real, max: real, r1: real, r2: real)
    requires min <= max && 0.0 <= r1 <= r2 < 1.0
    ensures Uniform(min, max, r1) <= Uniform(min, max, r2)
  {
    var w := max - min;
    assert Uniform(min, max, r2) - Uniform(min, max, r1) == (r2 - r1) * w;
  }

  /** `getNormal(mean, stdDev)` after the Box-Muller step: `Math.max(0, mean + z * stdDev)`. */
  function ClampNormal(mean: real, stdDev: real, z: real): (v: real)
    ensures v >= 0.0
    ensures v >= mean + z * stdDev
    ensures v == 0.0 || v == mean + z * stdDev
  {
    if mean + z * stdDev >= 0.0 then mean + z * stdDev else 0.0
  }

  /** The service duration chosen by `simulateStep` for a model and service rate `mu`. */
  function ServiceTime(model: ServiceModel, mu: real, d: ServiceDraws): (s: real)
    requires mu > 0.0 && DrawsOk(d)
    ensures s >= 0.0
    ensures model == MMC ==> s * mu == d.negLog
    ensures model == MGC ==> 1.0 / mu <= s < 2.0 / mu && s * mu == 1.0 + d.uniform
    ensures model == MNC ==> s >= (1.0 + 0.3 * d.z) / mu && (s == 0.0 || s * mu == 1.0 + 0.3 * d.z)
  {
    match model
    case MMC => Exponential(mu, d.negLog)
    case MGC =>
      UniformService(mu, d.uniform);
      Uniform(1.0 / mu, 2.0 / mu, d.uniform)
    case MNC =>
      var mean := 1.0 / mu;
      var stdDev := mean * 0.3;
      NormalScaling(mu, d.z);
      ClampNormal(mean, stdDev, d.z)
  }

  /** The uniform law on [1/mu, 2/mu) is `(1 + r) / mu` for the draw `r`. */
  lemma UniformService(mu: real, r: real)
    requires mu > 0.0 && 0.0 <= r < 1.0
    ensures 1.0 / mu <= Uniform(1.0 / mu, 2.0 / mu, r) < 2.0 / mu
    ensures Uniform(1.0 / mu, 2.0 / mu, r) * mu == 1.0 + r
  {
    var w := 1.0 / mu;
    assert w * mu == 1.0;
    assert 2.0 / mu == w + w;
    assert Uniform(1.0 / mu, 2.0 / mu, r) == w + r * w;
    assert (w + r * w) * mu == w * mu + r * (w * mu);
  }

  /** The normal law's location and spread, both derived from `mu`, combine into one fraction of `1 / mu`. */
  lemma NormalScaling(mu: real, z: real)
    requires mu > 0.0
    ensures 1.0 / mu + z * (1.0 / mu * 0.3) == (1.0 + 0.3 * z) / mu
  {
  }
}

=== FILE: seqs.dfy ===
/** Facts about sequences used to carry a log's history through repeated steps. */
module Seqs {

  /** A prefix of a prefix is a prefix. */
  lemma PrefixTransitive<T>(a: seq<T>, b: seq<T>, c: seq<T>)
    requires |c| <= |b| <= |a| && a[..|b|] == b && b[..|c|] == c
    ensures a[..|c|] == c
  {
    assert a[..|c|] == a[..|b|][..|c|];
  }
}

=== FILE: single_server.dfy ===
/**
 * The single-server simulator of main.js. Each customer starts when both it has
 * arrived and the previous customer has left. A running total `cp` of the
 * arrival draws caps the run: a step that would push it past 1 pauses instead.
 */
module SingleServer {
  import opened Sums
  import opened Seqs

  /** One row of the table; `rn1` and `rn2` are the uniform draws behind the two samples. */
  datatype Record = Record(
    id: nat, rn1: real, interarrival: real, arrival: real, rn2: real, service: real,
    start: real, end: real, tat: real, wait: real, response: real)

  /** The module-level variables of main.js that the step reads and writes. */
  datatype State = State(customers: seq<Record>, cp: real, customerId: nat, lastArrivalTime: real)

  /** What a step does: pause the timer and change nothing, or move to a new state. */
  datatype Outcome = Paused | Advanced(next: State)

  /** The sampled values one step consumes. */
  datatype Draw = Draw(rn1: real, interarrival: real, rn2: real, service: real)

  /** The ranges of `Math.random()` and of the exponential samples built from it with positive rates. */
  predicate DrawOk(d: Draw)
  {
    0.0 <= d.rn1 < 1.0 && 0.0 <= d.rn2 < 1.0 && d.interarrival >= 0.0 && d.service >= 0.0
  }

  /** The end time the i-th customer waits for: the previous customer's end, or 0 for the first. */
  function PrevEnd(cs: seq<Record>, i: nat): real
    requires i <= |cs|
  {
    if i == 0 then 0.0 else cs[i - 1].end
  }

  /** The arrival clock before the i-th customer: the previous arrival, or 0 for the first. */
  function PrevArrival(cs: seq<Record>, i: nat): real
    requires i <= |cs|
  {
    if i == 0 then 0.0 else cs[i - 1].arrival
  }

  /** The i-th record is what a step computes from its draw and the records before it. */
  predicate Chained(cs: seq<Record>, i: nat)
    requires i < |cs|
  {
    var c := cs[i];
    && c.id == i + 1
    && DrawOk(Draw(c.rn1, c.interarrival, c.rn2, c.service))
    && c.arrival == PrevArrival(cs, i) + c.interarrival
    && c.start == Max2(c.arrival, PrevEnd(cs, i))
    && c.end == c.start + c.service
    && c.tat == c.end - c.arrival
    && c.wait == c.start - c.arrival
    && c.response == c.wait
  }

  /** The arrival draws of a log, in order. */
  function Rn1s(cs: seq<Record>): (xs: seq<real>)
    ensures |xs| == |cs| && forall i :: 0 <= i < |cs| ==> xs[i] == cs[i].rn1
  {
    seq(|cs|, i requires 0 <= i < |cs| => cs[i].rn1)
  }

  /** The sampled gaps of a log, in order. */
  function Gaps(cs: seq<Record>): (xs: seq<real>)
    ensures |xs| == |cs| && forall i :: 0 <= i < |cs| ==> xs[i] == cs[i].interarrival
  {
    seq(|cs|, i requires 0 <= i < |cs| => cs[i].interarrival)
  }

  /** The invariant of every state reachable from a reset. */
  predicate Valid(s: State)
  {
    && 0.0 <= s.cp <= 1.0
    && s.cp == Sum(Rn1s(s.customers))
    && s.customerId == |s.customers| + 1
    && s.lastArrivalTime == PrevArrival(s.customers, |s.customers|)
    && (forall i :: 0 <= i < |s.customers| ==> Chained(s.customers, i))
  }

  /** `resetSimulation`: an empty log, `cp` back to 0, ids from 1, the clock at 0. */
  function Reset(): (r: State)
    ensures Valid(r)
    ensures r.customers == [] && r.cp == 0.0 && r.customerId == 1 && r.lastArrivalTime == 0.0
  {
    State([], 0.0, 1, 0.0)
  }

  /**
   * `simulateStep` for the sampled values of one tick. A draw that would take
   * `cp` past 1 pauses the run and leaves the state as it was.
   */
  function Step(s: State, d: Draw): (r: Outcome)
    requires Valid(s) && DrawOk(d)
    ensures r.Paused? <==> s.cp + d.rn1 > 1.0
    ensures r.Advanced? ==>
      && Valid(r.next)
      && r.next.cp == s.cp + d.rn1
      && s.cp <= r.next.cp <= 1.0
      && |r.next.customers| == |s.customers| + 1
      && r.next.customers[..|s.customers|] == s.customers
      && r.next.customerId == s.customerId + 1
      && r.next.lastArrivalTime == s.lastArrivalTime + d.interarrival
      && var c := r.next.customers[|s.customers|];
         && c.id == s.customerId
         && c.rn1 == d.rn1 && c.rn2 == d.rn2
         && c.service == d.service
         && c.arrival == r.next.lastArrivalTime
         && c.start >= c.arrival && c.start >= PrevEnd(s.customers, |s.customers|)
         && (c.start == c.arrival || c.start == PrevEnd(s.customers, |s.customers|))
         && c.wait >= 0.0
         && c.response == c.wait
         && c.tat == c.wait + c.service
  {
    if s.cp + d.rn1 > 1.0 then Paused
    else
      var cs := s.customers;
      var arrival := s.lastArrivalTime + d.interarrival;
      var start := Max2(arrival, PrevEnd(cs, |cs|));
      var end := start + d.service;
      var c := Record(s.customerId, d.rn1, d.interarrival, arrival, d.rn2, d.service,
                      start, end, end - arrival, start - arrival, start - arrival);
      var next := State(cs + [c], s.cp + d.rn1, s.customerId + 1, arrival);
      StepKeepsValid(s, next, c);
      Advanced(next)
  }

  /** Appending the record a step computes keeps the invariant. */
  lemma StepKeepsValid(s: State, next: State, c: Record)
    requires Valid(s) && DrawOk(Draw(c.rn1, c.interarrival, c.rn2, c.service))
    requires s.cp + c.rn1 <= 1.0
    requires next == State(s.customers + [c], s.cp + c.rn1, s.customerId + 1, c.arrival)
    requires c.id == s.customerId
    requires c.arrival == s.lastArrivalTime + c.interarrival
    requires c.start == Max2(c.arrival, PrevEnd(s.customers, |s.customers|))
    requires c.end == c.start + c.service && c.tat == c.end - c.arrival
    requires c.wait == c.start - c.arrival && c.response == c.wait
    ensures Valid(next)
  {
    var cs := s.customers;
    var cs' := next.customers;
    assert Rn1s(cs') == Rn1s(cs) + [c.rn1];
    SumAppend(Rn1s(cs), c.rn1);
    forall i | 0 <= i < |cs'|
      ensures Chained(cs', i)
    {
      if i < |cs| {
        assert Chained(cs, i);
      }
    }
  }

  /** The interval timer: steps are taken until a step pauses or the ticks run out. */
  function Run(s: State, ds: seq<Draw>): (r: State)
    requires Valid(s)
    requires forall i :: 0 <= i < |ds| ==> DrawOk(ds[i])
    ensures Valid(r)
    ensures s.cp <= r.cp <= 1.0
    ensures |s.customers| <= |r.customers| <= |s.customers| + |ds|
    ensures r.customers[..|s.customers|] == s.customers
    decreases |ds|
  {
    if |ds| == 0 then s
    else
      match Step(s, ds[0])
      case Paused => s
      case Advanced(s') =>
        var r := Run(s', ds[1..]);
        PrefixTransitive(r.customers, s'.customers, s.customers);
        r
  }

  /** Arrivals never go backwards along the log. */
  lemma {:induction false} ArrivalsOrdered(s: State, i: nat, j: nat)
    requires Valid(s) && i <= j < |s.customers|
    ensures s.customers[i].arrival <= s.customers[j].arrival
    decreases j - i
  {
    if i < j {
      assert Chained(s.customers, j);
      ArrivalsOrdered(s, i, j - 1);
    }
  }

  /** The arrival clock is the sum of the sampled gaps so far. */
  lemma {:induction false} ArrivalIsSumOfGaps(s: State, i: nat)
    requires Valid(s) && i <= |s.customers|
    ensures PrevArrival(s.customers, i) == Sum(Gaps(s.customers[..i]))
  {
    var cs := s.customers;
    if i > 0 {
      ArrivalIsSumOfGaps(s, i - 1);
      assert Chained(cs, i - 1);
      assert Gaps(cs[..i]) == Gaps(cs[..i - 1]) + [cs[i - 1].interarrival];
      SumAppend(Gaps(cs[..i - 1]), cs[i - 1].interarrival);
    }
  }

  /** Service is first-come first-served and never overlaps: a customer starts only after every earlier one has left. */
  lemma {:induction false} NoOverlap(s: State, i: nat, j: nat)
    requires Valid(s) && i < j < |s.customers|
    ensures s.customers[i].end <= s.customers[j].start
    decreases j - i
  {
    var cs := s.customers;
    assert Chained(cs, j);
    if i < j - 1 {
      NoOverlap(s, i, j - 1);
      assert Chained(cs, j - 1);
    }
  }

  /** The first customer after a reset never waits. */
  lemma FirstCustomerNeverWaits(s: State)
    requires Valid(s) && |s.customers| > 0
    ensures s.customers[0].start == s.customers[0].arrival && s.customers[0].wait == 0.0
  {
    assert Chained(s.customers, 0);
  }
}

=== FILE: sums.dfy ===
/** Real-valued reductions used by the simulation summaries. */
module Sums {

  /**
   * `xs.reduce((a, b) => a + b, 0)`: a left fold, so the last element is added
   * last. A total of non-negative terms is non-negative.
   */
  function Sum(xs: seq<real>): (s: real)
    ensures (forall i :: 0 <= i < |xs| ==> xs[i] >= 0.0) ==> s >= 0.0
  {
    if |xs| == 0 then 0.0 else Sum(xs[..|xs| - 1]) + xs[|xs| - 1]
  }

  /** Appending one element adds exactly that element to the running total. */
  lemma SumAppend(xs: seq<real>, x: real)
    ensures Sum(xs + [x]) == Sum(xs) + x
  {
    assert (xs + [x])[..|xs|] == xs;
  }

  /** Summing is linear: the sum of a pointwise sum is the sum of the sums. */
  lemma {:induction false} SumPointwise(xs: seq<real>, ys: seq<real>, zs: seq<real>)
    requires |xs| == |ys| == |zs|
    requires forall i :: 0 <= i < |zs| ==> zs[i] == xs[i] + ys[i]
    ensures Sum(zs) == Sum(xs) + Sum(ys)
  {
    if |zs| > 0 {
      var n := |zs| - 1;
      SumPointwise(xs[..n], ys[..n], zs[..n]);
    }
  }

  /** `m` is the arithmetic mean of `xs`: `m` times the length of `xs` is its total. */
  predicate MeanOf(m: real, xs: seq<real>)
  {
    |xs| > 0 && m * (|xs| as real) == Sum(xs)
  }

  /** The arithmetic mean `Sum(xs) / xs.length` of a non-empty sequence. */
  function Mean(xs: seq<real>): (m: real)
    requires |xs| > 0
    ensures MeanOf(m, xs)
    ensures Sum(xs) >= 0.0 ==> m >= 0.0
  {
    Sum(xs) / (|xs| as real)
  }

  /** `Math.max(a, b)` on two finite numbers. */
  function Max2(a: real, b: real): (m: real)
    ensures m >= a && m >= b
    ensures m == a || m == b
  {
    if a >= b then a else b
  }

  /** `Math.max(...xs)` on a non-empty array: an element that no element exceeds. */
  function MaxOf(xs: seq<real>): (m: real)
    requires |xs| > 0
    ensures m in xs
    ensures forall i :: 0 <= i < |xs| ==> xs[i] <= m
  {
    if |xs| == 1 then xs[0] else Max2(MaxOf(xs[..|xs| - 1]), xs[|xs| - 1])
  }

  /** Dividing a sum by a positive count distributes over the sum. */
  lemma DivisionSplits(a: real, b: real, n: real)
    requires n > 0.0
    ensures (a + b) / n == a / n + b / n
  {
  }

  /** A share `part / whole` expressed in percent lies in [0, 100] when 0 <= part <= whole. */
  lemma PercentBounds(part: real, whole: real)
    requires 0.0 <= part <= whole && whole > 0.0
    ensures 0.0 <= part / whole * 100.0 <= 100.0
  {
    assert part / whole <= 1.0;
  }
}

=== FILE: wrappers.dfy ===
/** Failure-carrying datatypes shared by the engine modules. */
module Wrappers {

  /** A value that may be absent; `None` stands for a JavaScript `NaN` or an undefined result. */
  datatype Option<+T> = None | Some(value: T)

  /** The outcome of an operation that can reject its input. */
  datatype Result<+R, +E> = Success(value: R) | Failure(error: E)
}
